=== FILE: README.md ===
# Value formatter of i3status-rust, modelled in Dafny

This project models the scalar value formatter of the status bar (`src/formatting/value.rs`):
a `Value` holds a measurement (text, 64-bit integer or float) together with a unit, an optional
icon and a default minimum width, and `Value::format` renders it under the per-call overrides of
a `Variable` — as a padded or truncated text, a left-padded integer, an SI-scaled number
(`format_number`) or a bar of Unicode block glyphs (`format_bar`).

Modules, leaves first:

- `Optional` — `Option` and `unwrap_or`.
- `Units` — the `Unit` and `Suffix` tags and the suffix/level tables of `format_number`.
- `RustInt` — the `i64` range, Rust's truncating `/`, and `i64::to_string` with a parser as its inverse.
- `Utf8Text` — strings as chars whose length is counted in UTF-8 bytes, as `str::len` and
  `String::truncate` count it; padding on either side; truncation that panics off a char boundary.
- `Bar` — `format_bar` on an exact `real` ratio.
- `Powers` — exact powers of ten (`10f64.powi`).
- `NumberFormat` — the decisions of `format_number`: level, scale, suffix, digits and decimal budget.
- `Values` — `Value`, `Variable`, constructors, setters, unit conversion and `Value::format`.

Collaborators the formatter only calls are parameters: the display strings of units and
suffixes, floor(log10 x), and Rust's `{:.N}` float rendering (`Values.Env`, `NumberFormat.Numerics`).
`Powers.Pow10` and `Values.Magnitude` are the exact-real stand-ins for `10f64.powi` and `i as f64`.
`Format` returns `None` exactly where the Rust code panics (truncation inside a multi-byte char).

Behaviours of the code worth noting, all modelled as written:

- With one character of width budget left, the trailing dot comes after the suffix symbol
  (`"1K."`, value.rs line 57).
- Text values also get the resolved unit's symbol (lines 226-230).
- Text padding and truncation count bytes, and `String::truncate` panics when the cut falls
  inside a char (lines 177, 184).

## Model

| member | source | states |
|---|---|---|
| Units.Level | src/formatting/value.rs:25-34 | every suffix has an exponent level between -3 and 4; together with LevelOrder this fixes Nano at -3 up to Tera at 4 |
| Units.LevelOrder | src/formatting/value.rs:25-34 | levels rise strictly along the suffix order Nano < Micro < Milli < One < Kilo < Mega < Giga < Tera, so with the -3..4 bounds the whole table is fixed |
| Units.SuffixAt | src/formatting/value.rs:39-48 | a level in -3..4 maps to the suffix of that level; every other level maps to Nano |
| Units.SuffixAtLevel | src/formatting/value.rs:25-48 | the level table and the suffix table are inverse, so the chosen suffix is the one whose level was chosen |
| Units.LevelInjective | src/formatting/value.rs:25-34 | two suffixes share a level only if they are equal, so levels order the suffixes totally |
| RustInt.TruncDiv | src/formatting/value.rs:193 | `value / 8` leaves a remainder with the sign of the dividend and smaller than 8 in magnitude |
| RustInt.TruncDivUnique | src/formatting/value.rs:193 | that remainder condition determines the quotient: it is division rounded toward zero |
| RustInt.NatDigits | src/formatting/value.rs:198 | the digits of a magnitude are at least one decimal digit and start with 0 only for zero |
| RustInt.IntToString | src/formatting/value.rs:198 | the text of an integer is non-empty, starts with `-` exactly for negatives, is otherwise digits, and has no leading zero except for 0 itself, so it is the canonical decimal text |
| RustInt.IntToStringRoundTrip | src/formatting/value.rs:198 | the decimal text of any integer parses back to that integer |
| RustInt.IntToStringInjective | src/formatting/value.rs:198 | distinct integers have distinct texts |
| Utf8Text.ByteLen | src/formatting/value.rs:177 | the length used for padding is the UTF-8 length: a single char counts its UTF-8 width (1 byte below U+0080, 2 below U+0800, 3 below U+10000, else 4) and, with ByteLenAppend, lengths add up over the string |
| Utf8Text.ByteLenAppend | src/formatting/value.rs:180 | byte length adds up over concatenation, so each pushed pad adds its own width |
| Utf8Text.PadRight | src/formatting/value.rs:177-182 | the text is kept as a prefix, followed by exactly min_width - len pad chars when the text is shorter (none otherwise), whatever the pad's width; with an ASCII pad the byte length becomes max(len, min_width) |
| Utf8Text.PadLeft | src/formatting/value.rs:199-206 | the text is kept as a suffix, preceded by exactly min_width - len pad chars when the text is shorter (none otherwise), whatever the pad's width; with an ASCII pad the byte length becomes max(len, min_width) |
| Utf8Text.BoundaryIndex | src/formatting/value.rs:184 | finds the prefix exactly `n` bytes long when there is one, and reports none exactly when `n` falls inside a char or past the end |
| Utf8Text.TruncateBytes | src/formatting/value.rs:183-185 | the result is a prefix of byte length min(n, len); it panics exactly when `n` is below the length and no prefix ends at byte `n` |
| Utf8Text.AsciiTruncate | src/formatting/value.rs:184 | on ASCII text truncation never panics and keeps the first min(n, len) chars |
| Bar.Clamp01 | src/formatting/value.rs:64 | the ratio is clamped into [0, 1] and left alone inside it |
| Bar.FillLevel | src/formatting/value.rs:68-70 | a cell's level is 0..8, it is 8 exactly when a whole cell remains to fill, 0 exactly when less than an eighth remains, and it is the remaining fraction rounded down to eighths |
| Bar.Glyph | src/formatting/value.rs:70-80 | the glyph of level `l` is entry `l` of the nine-glyph ramp, with every level from 8 up drawing the full block |
| Bar.GlyphRoundTrip | src/formatting/value.rs:70-80 | every level 0..8 has its own glyph: reading the glyph back gives the level |
| Bar.GlyphLevelOnRamp | src/formatting/value.rs:70-80 | a char reads back as a level exactly when it is on the ramp |
| Bar.FormatBar | src/formatting/value.rs:63-83 | the bar has exactly `length` chars, each on the ramp, each encoding its cell's fill level |
| Bar.BarEmpty | src/formatting/value.rs:63-83 | a ratio at or below 0 draws only blanks |
| Bar.BarFull | src/formatting/value.rs:63-83 | a ratio at or above 1 draws only full blocks |
| Bar.BarMonotone | src/formatting/value.rs:65-70 | fill levels never increase from left to right |
| Bar.BarSinglePartial | src/formatting/value.rs:65-70 | a partial glyph (level 1 to 7) can only sit in cell floor(clamped ratio x length), so at most one cell holds one |
| Bar.BarTotalEighths | src/formatting/value.rs:63-83 | the bar shows exactly floor(8 x clamped ratio x length) eighths in all |
| Bar.BarHalfOfFour | src/formatting/value.rs:63-83 | a ratio of 0.5 over four cells is two full blocks then two blanks |
| NumberFormat.SaturateI32 | src/formatting/value.rs:36 | the `as i32` cast keeps values in range and saturates the rest to the nearest bound |
| NumberFormat.RawLevel | src/formatting/value.rs:36 | the raw level is an `i32`; for positive x it is floor(floor(log10 x) / 3), i.e. 3 x level <= floor(log10 x) < 3 x level + 3, saturating to `i32::MIN`/`i32::MAX` when that is outside the `i32` range; zero gives `i32::MIN` (log10 is minus infinity) and a negative number gives 0 (NaN) |
| Powers.Pow10Thousand | src/formatting/value.rs:37 | the exact stand-in for `10f64.powi(exp_level * 3)` grows by a factor of 1000 per level |
| NumberFormat.ClampLevel | src/formatting/value.rs:36 | the level lies in [level(min_suffix), 4], equals the raw level inside that range and the nearer bound outside it |
| NumberFormat.ClampLevelStep | src/formatting/value.rs:36 | one more raw level raises the chosen level by at most one, and by exactly one when not clamped |
| NumberFormat.IntegerDigits | src/formatting/value.rs:51 | the digit count is at least 1, is floor(log10)+1 for values of at least 1, and is 1 for values below 1, zero and negative values |
| NumberFormat.DecimalBudget | src/formatting/value.rs:53-60 | budget <= 0 gives no fraction and no dot, budget 1 a trailing dot, larger budgets budget-1 decimals; digits plus the decimal part fill max(digits, min_width) |
| NumberFormat.Plan | src/formatting/value.rs:24-53 | the chosen level is the raw level clamped into [level(min_suffix), 4], so the suffix is never below min_suffix nor above Tera; the scaled value times 1000^level is the input; the digit count is that of the scaled value; the decimal part is the budget split of min_width - digits, and digits plus the decimal part (counting the dot) take max(digits, min_width) chars |
| NumberFormat.FormatNumber | src/formatting/value.rs:53-60 | with no budget left the output is the number rounded to an integer then the suffix symbol; with one character left the same followed by `.`; with more, the number with budget - 1 decimals then the suffix symbol |
| NumberFormat.TrailingDotAfterSuffix | src/formatting/value.rs:57 | with one character of budget the output is the rounded number, the suffix symbol, then `.` |
| NumberFormat.FormatNumberNoDot | src/formatting/value.rs:53-60 | otherwise the output is the number with the budgeted decimals then the suffix symbol; decimals appear exactly when two or more characters are left and then fill min_width exactly |
| NumberFormat.ZeroInput | src/formatting/value.rs:36-51 | zero is shown unscaled at min_suffix with one integer digit |
| NumberFormat.NegativeInput | src/formatting/value.rs:36-51 | a negative number gets level max(0, level(min_suffix)) and one integer digit |
| NumberFormat.UnclampedPlan | src/formatting/value.rs:36-51 | when the clamp does not intervene the scaled value lies in [1, 1000) and has one to three integer digits |
| NumberFormat.ScaleByThousand | src/formatting/value.rs:36-48 | multiplying a positive input that is not held up by min_suffix by 1000 raises the suffix by exactly one step, unless it is already Tera |
| NumberFormat.KiloExample | src/formatting/value.rs:24-60 | 1536 with min suffix One and width 3 renders as 1.536 with one decimal and the Kilo symbol |
| Values.FromString | src/formatting/value.rs:87-94 | a text value starts with no icon, no unit and width 0 |
| Values.FromInteger | src/formatting/value.rs:95-102 | an integer value starts with no icon, no unit and width 2 |
| Values.FromFloat | src/formatting/value.rs:103-110 | a float value starts with no icon, no unit and width 3 |
| Values.WithIcon | src/formatting/value.rs:113-116 | the icon setter sets the icon and changes nothing else |
| Values.WithUnit | src/formatting/value.rs:123-154 | a unit setter sets the unit and changes nothing else |
| Values.UnitSettersStoreTheirUnit | src/formatting/value.rs:123-154 | each of the eight named unit setters stores its own unit and leaves icon, width and measurement alone |
| Values.SetterAlgebra | src/formatting/value.rs:113-154 | of chained unit (or icon) setters the last wins, and icon and unit setters commute |
| Values.EffectiveMinWidth | src/formatting/value.rs:158 | the requested width when there is one, else the value's own width |
| Values.EffectivePad | src/formatting/value.rs:159 | the requested pad char when there is one, else a space |
| Values.EffectiveUnit | src/formatting/value.rs:160 | the requested unit when there is one, else the stored unit |
| Values.EffectiveMinSuffix | src/formatting/value.rs:222 | the requested minimum suffix when there is one, else Nano |
| Values.ConvertInt | src/formatting/value.rs:190-196 | bytes to bits multiplies by 8, bits to bytes divides by 8 rounding toward zero, every other unit pair leaves the number unchanged |
| Values.ConvertFloat | src/formatting/value.rs:211-217 | the same rule on floats, with exact division |
| Values.ConversionRoundTrip | src/formatting/value.rs:190-217 | converting an integer to bits and back restores it; for floats both orders restore it |
| Values.NegativeBitsTruncate | src/formatting/value.rs:193 | -9 bits is -1 byte and 9 bits is 1 byte |
| Values.RenderText | src/formatting/value.rs:175-187 | without max_width the text is just right-padded; with one the result is the prefix of the padded text of byte length min(max_width, padded length); it panics exactly when max_width cuts the padded text inside a char |
| Values.AsciiTextRendering | src/formatting/value.rs:175-187 | ASCII text with an ASCII pad never panics, has length min(max(len, min_width), max_width), and keeps the text whole whenever max_width >= len |
| Values.RenderInteger | src/formatting/value.rs:198-207 | the integer text is max(len, min_width) chars: pad chars on the left, then the decimal text, which reads back as the number |
| Values.Magnitude | src/formatting/value.rs:166-169 | the ratio's numerator is the integer itself, taken exactly as a whole-number real (the stand-in for `i as f64`), or the float unchanged |
| Values.ScalarBody | src/formatting/value.rs:174-225 | numbers always render; text renders by padding and truncation, integers as the padded decimal text of the converted number, floats through format_number of the converted number with the effective width and minimum suffix; only text with a max_width can fail |
| Values.Format | src/formatting/value.rs:157-231 | formatting panics only for a text value with a max_width |
| Values.BarPathBypassesDecoration | src/formatting/value.rs:164-172 | with a bar maximum a number renders as exactly the bar of value/maximum, min_width glyphs long, with no icon or unit symbol |
| Values.TextIgnoresBarAndSuffix | src/formatting/value.rs:164-187 | a text value renders the same whatever bar maximum or minimum suffix is requested |
| Values.ScalarAssembly | src/formatting/value.rs:226-230 | outside the bar path the output is the icon, then the rendered measurement, then the resolved unit's symbol, text values included |
| Values.IntegerRendering | src/formatting/value.rs:188-208 | an integer renders as the converted number's decimal text, left-padded with the effective pad to the effective width, between icon and unit symbol |
| Values.FloatRendering | src/formatting/value.rs:209-224 | a float renders through format_number with the converted value, the effective width and min_suffix defaulting to Nano |
| Values.AsciiTextFormat | src/formatting/value.rs:175-187 | an ASCII text value always renders, its body has length min(max(len, min_width), max_width) and starts with the text when max_width allows |
| Values.OverridesTakePrecedence | src/formatting/value.rs:158-160 | a width override acts like a value built with that width, no pad override acts like a space, and no unit override acts like the stored unit |
| Values.BytesShownAsBits | src/formatting/value.rs:190-207 | an integer byte rate shown in bits renders like the eight-times-larger bit rate shown as stored |
| Values.PaddedIntegerExample | src/formatting/value.rs:198-207 | 42 with width 5 renders as three spaces then "42", then the unit symbol |

## Left out

- Floating point: `f64` values, ratios and divisions are exact `real`s, so modelled values are never NaN or infinite and no rounding happens; only the integer outcomes of log10 at zero (minus infinity) and at negative inputs (NaN) are modelled (`NumberFormat.RawLevel`, `NumberFormat.IntegerDigits`), and `i as f64` is taken as exact even above 2^53.
- Logarithms and `{:.N}`: floor(log10 x) and Rust's fixed-point rendering are supplied as parameters (`NumberFormat.Numerics`); the properties that need the logarithm to be exact assume `ExactLog10`.
- Unit and suffix display strings: `unit.rs` and `suffix.rs` are not part of this model; their symbols are parameters.
- `Variable`: only the six fields `Value::format` reads are modelled; how templates and configuration build it is not part of this model.
- Values.Format: a `bar_max_value` of zero is excluded by its precondition (`Renderable`), because the IEEE division by zero and the NaN or infinity that follows are not modelled.
- Values.Format: an `i64` overflow of `value * 8` is excluded by its precondition, because it panics in debug builds and wraps in release builds.
- Byte units are scaled by powers of 1000, not 1024, exactly as the code does (the FIXME at lines 22-23 is kept, not fixed).
- The commented-out `min_width` setter (lines 117-120) is dead code and is not modelled.

=== FILE: bar.dfy ===
/** `format_bar`: a ratio drawn as a row of Unicode left-fill block glyphs at eighth-cell
    resolution. The ratio is an exact `real`, an idealisation of the `f64` arithmetic. */
module Bar {
  import opened Optional

  /** The nine glyphs, indexed by fill level in eighths: a blank, U+258F (one eighth) down to
      U+2589 (seven eighths), and the full block U+2588. */
  const Ramp: seq<char> := [' ', '\U{258F}', '\U{258E}', '\U{258D}', '\U{258C}', '\U{258B}', '\U{258A}', '\U{2589}', '\U{2588}']
  const Blank: char := ' '
  const FullBlock: char := '\U{2588}'

  /** `f64::clamp(0., 1.)`. */
  function Clamp01(x: real): (y: real)
    ensures 0.0 <= y <= 1.0
    ensures 0.0 <= x <= 1.0 ==> y == x
    ensures x < 0.0 ==> y == 0.0
    ensures x > 1.0 ==> y == 1.0
  {
    if x < 0.0 then 0.0 else if x > 1.0 then 1.0 else x
  }

  /** Eighths shown in cell `i` when `filled` cells' worth of bar is drawn: the clamped
      remainder times 8, truncated by the `as usize` cast. */
  function FillLevel(filled: real, i: nat): (l: nat)
    ensures l <= 8
    ensures l == 8 <==> filled - i as real >= 1.0
    ensures l == 0 <==> filled - i as real < 0.125
    ensures 0.125 * l as real <= Clamp01(filled - i as real) < 0.125 * (l + 1) as real
  {
    (Clamp01(filled - i as real) * 8.0).Floor
  }

  /** The glyph of a fill level; every level from 8 up draws the full block. */
  function Glyph(level: nat): (c: char)
    ensures c == Ramp[if level < 8 then level else 8]
  {
    match level
    case 0 => ' '
    case 1 => '\U{258F}'
    case 2 => '\U{258E}'
    case 3 => '\U{258D}'
    case 4 => '\U{258C}'
    case 5 => '\U{258B}'
    case 6 => '\U{258A}'
    case 7 => '\U{2589}'
    case _ => '\U{2588}'
  }

  /** Reads a glyph back as its fill level, or `None` for a char outside the ramp. */
  function GlyphLevel(c: char): (l: Option<nat>)
  {
    if c == ' ' then Some(0)
    else if c == '\U{258F}' then Some(1)
    else if c == '\U{258E}' then Some(2)
    else if c == '\U{258D}' then Some(3)
    else if c == '\U{258C}' then Some(4)
    else if c == '\U{258B}' then Some(5)
    else if c == '\U{258A}' then Some(6)
    else if c == '\U{2589}' then Some(7)
    else if c == '\U{2588}' then Some(8)
    else None
  }

  /** Each level 0..8 has its own glyph: decoding a drawn glyph recovers the level. */
  lemma GlyphRoundTrip(level: nat)
    requires level <= 8
    ensures GlyphLevel(Glyph(level)) == Some(level)
  {
  }

  /** Decoding accepts exactly the ramp. */
  lemma GlyphLevelOnRamp(c: char)
    ensures GlyphLevel(c).Some? <==> c in Ramp
    ensures GlyphLevel(c).Some? ==> GlyphLevel(c).value <= 8 && Ramp[GlyphLevel(c).value] == c
  {
  }

  /** Fill level of cell `i` of a bar for `ratio` drawn `length` cells long. */
  function BarLevel(ratio: real, length: nat, i: nat): nat
  {
    FillLevel(Clamp01(ratio) * length as real, i)
  }

  function FormatBar(ratio: real, length: nat): (r: string)
    ensures |r| == length
    ensures forall i | 0 <= i < length :: r[i] in Ramp && GlyphLevel(r[i]) == Some(BarLevel(ratio, length, i))
  {
    seq(length, i requires 0 <= i < length => Glyph(BarLevel(ratio, length, i)))
  }

  /** A ratio at or below 0 draws only blanks. */
  lemma BarEmpty(ratio: real, length: nat)
    requires ratio <= 0.0
    ensures forall i | 0 <= i < length :: FormatBar(ratio, length)[i] == Blank
  {
  }

  /** A ratio at or above 1 draws only full blocks. */
  lemma BarFull(ratio: real, length: nat)
    requires ratio >= 1.0
    ensures forall i | 0 <= i < length :: FormatBar(ratio, length)[i] == FullBlock
  {
  }

  /** Fill never increases from left to right. */
  lemma BarMonotone(ratio: real, length: nat, i: nat, j: nat)
    requires i <= j < length
    ensures BarLevel(ratio, length, i) >= BarLevel(ratio, length, j)
  {
  }

  predicate IsPartial(level: nat) {
    0 < level < 8
  }

  /** At most one cell is drawn with a partial glyph: the cell at floor(clamped ratio * length). */
  lemma BarSinglePartial(ratio: real, length: nat)
    ensures forall i | 0 <= i < length && IsPartial(BarLevel(ratio, length, i)) :: i == (Clamp01(ratio) * length as real).Floor
  {
  }

  /** Total eighths drawn in the first `m` cells. */
  function LevelSum(ratio: real, length: nat, m: nat): nat
  {
    if m == 0 then 0 else LevelSum(ratio, length, m - 1) + BarLevel(ratio, length, m - 1)
  }

  lemma {:induction false} LevelSumFull(ratio: real, length: nat, m: nat)
    requires m as real <= Clamp01(ratio) * length as real
    ensures LevelSum(ratio, length, m) == 8 * m
    decreases m
  {
    if m > 0 {
      LevelSumFull(ratio, length, m - 1);
    }
  }

  lemma {:induction false} LevelSumTail(ratio: real, length: nat, k: nat, m: nat)
    requires k < m
    requires (k + 1) as real > Clamp01(ratio) * length as real
    ensures LevelSum(ratio, length, m) == LevelSum(ratio, length, k + 1)
    decreases m
  {
    if m > k + 1 {
      LevelSumTail(ratio, length, k, m - 1);
      assert BarLevel(ratio, length, m - 1) == 0;
    }
  }

  lemma FloorShift(x: real, n: int)
    ensures (x + n as real).Floor == x.Floor + n
  {
  }

  /** The bar as a whole shows exactly floor(8 * clamped ratio * length) eighths: the glyphs are
      a faithful eighth-resolution rounding-down of the requested fill. */
  lemma BarTotalEighths(ratio: real, length: nat)
    ensures LevelSum(ratio, length, length) == (8.0 * (Clamp01(ratio) * length as real)).Floor
  {
    var filled := Clamp01(ratio) * length as real;
    assert 0.0 <= filled <= length as real by {
      assert Clamp01(ratio) * length as real <= 1.0 * length as real;
    }
    var k := filled.Floor;
    assert 0 <= k <= length;
    LevelSumFull(ratio, length, k);
    if k < length {
      LevelSumTail(ratio, length, k, length);
      var rest := filled - k as real;
      assert 0.0 <= rest < 1.0;
      assert BarLevel(ratio, length, k) == (rest * 8.0).Floor;
      assert 8.0 * filled == 8.0 * rest + (8 * k) as real;
      FloorShift(8.0 * rest, 8 * k);
    } else {
      assert filled == length as real;
    }
  }

  /** Half of a four-cell bar is two full blocks then two blanks. */
  lemma BarHalfOfFour()
    ensures FormatBar(0.5, 4) == [FullBlock, FullBlock, Blank, Blank]
  {
  }
}

=== FILE: number_format.dfy ===
/** The decision logic of `format_number`: which SI suffix a float is shown with, how it is
    scaled, and how many decimals fit the width budget. The logarithm and Rust's `{:.N}`
    rendering are not computed here; they are supplied through `Numerics`. */
module NumberFormat {
  import opened Units
  import opened Powers

  /** The numeric collaborators of `format_number`:
      `suffixSymbol` is the display string of a suffix (defined outside the formatter),
      `log10Floor(x)` is floor(log10 x) for positive `x`,
      `fixed(x, n)` is Rust's `format!("{:.n}", x)`. */
  datatype Numerics = Numerics(
    suffixSymbol: Suffix -> string,
    log10Floor: real -> int,
    fixed: (real, nat) -> string)

  /** `log10Floor` really is floor(log10 x) on positive numbers. */
  ghost predicate ExactLog10(num: Numerics) {
    forall x: real | x > 0.0 :: Pow10(num.log10Floor(x)) <= x < Pow10(num.log10Floor(x) + 1)
  }

  const I32Min: int := -0x8000_0000
  const I32Max: int := 0x7fff_ffff

  /** Rust's saturating `f64 as i32` cast on a finite integral value. */
  function SaturateI32(x: int): (y: int)
    ensures I32Min <= y <= I32Max
    ensures I32Min <= x <= I32Max ==> y == x
    ensures x < I32Min ==> y == I32Min
    ensures x > I32Max ==> y == I32Max
  {
    if x < I32Min then I32Min else if x > I32Max then I32Max else x
  }

  /** `raw_value.log10().div_euclid(3.) as i32`. For 0, log10 is minus infinity and the cast
      saturates to `i32::MIN`; for a negative number log10 is NaN and the cast yields 0. */
  function RawLevel(num: Numerics, x: real): (l: int)
    ensures I32Min <= l <= I32Max
    ensures x == 0.0 ==> l == I32Min
    ensures x < 0.0 ==> l == 0
    ensures x > 0.0 && 3 * I32Min <= num.log10Floor(x) < 3 * I32Max + 3 ==> 3 * l <= num.log10Floor(x) < 3 * l + 3
    ensures x > 0.0 && num.log10Floor(x) < 3 * I32Min ==> l == I32Min
    ensures x > 0.0 && num.log10Floor(x) >= 3 * I32Max + 3 ==> l == I32Max
  {
    if x > 0.0 then SaturateI32(num.log10Floor(x) / 3)
    else if x == 0.0 then I32Min
    else 0
  }

  /** `Ord::clamp(min_exp_level, 4)`. */
  function ClampLevel(raw: int, minSuffix: Suffix): (l: int)
    ensures Level(minSuffix) <= l <= MaxLevel
    ensures Level(minSuffix) <= raw <= MaxLevel ==> l == raw
    ensures raw < Level(minSuffix) ==> l == Level(minSuffix)
    ensures raw > MaxLevel ==> l == MaxLevel
  {
    if raw < Level(minSuffix) then Level(minSuffix)
    else if raw > MaxLevel then MaxLevel
    else raw
  }

  /** One more raw level moves the chosen level up by one, unless the clamp holds it. */
  lemma ClampLevelStep(raw: int, minSuffix: Suffix)
    ensures ClampLevel(raw + 1, minSuffix) == ClampLevel(raw, minSuffix) || ClampLevel(raw + 1, minSuffix) == ClampLevel(raw, minSuffix) + 1
    ensures Level(minSuffix) <= raw < MaxLevel ==> ClampLevel(raw + 1, minSuffix) == ClampLevel(raw, minSuffix) + 1
  {
  }

  /** `(value.log10().floor() + 1.0).max(1.0) as isize`: at least 1, and 1 whenever log10 is
      minus infinity (zero) or NaN (negative), because `f64::max` ignores NaN. */
  function IntegerDigits(num: Numerics, value: real): (d: int)
    ensures d >= 1
    ensures value <= 0.0 ==> d == 1
    ensures value > 0.0 && num.log10Floor(value) >= 0 ==> d == num.log10Floor(value) + 1
    ensures value > 0.0 && num.log10Floor(value) < 0 ==> d == 1
  {
    if value > 0.0 && num.log10Floor(value) + 1 > 1 then num.log10Floor(value) + 1 else 1
  }

  /** What follows the integer part: nothing, a bare trailing dot, or `places` decimals. */
  datatype Decimals = Whole | TrailingDot | Fraction(places: nat)

  /** Characters the decimal part takes (dot included). */
  function DecimalWidth(d: Decimals): nat
  {
    match d
    case Whole => 0
    case TrailingDot => 1
    case Fraction(n) => n + 1
  }

  /** Decimal places count of the `{:.N}` rendering. */
  function Places(d: Decimals): nat
  {
    if d.Fraction? then d.places else 0
  }

  /** The match on `min_width - digits`. */
  function DecimalBudget(minWidth: nat, digits: int): (d: Decimals)
    ensures d.Whole? <==> minWidth - digits <= 0
    ensures d.TrailingDot? <==> minWidth - digits == 1
    ensures d.Fraction? ==> d.places >= 1
    ensures digits + DecimalWidth(d) == if digits < minWidth then minWidth else digits
  {
    var rest := minWidth - digits;
    if rest <= 0 then Whole
    else if rest == 1 then TrailingDot
    else Fraction(rest - 1)
  }

  /** Every decision `format_number` takes before it renders. */
  datatype NumberPlan = NumberPlan(scaled: real, suffix: Suffix, digits: int, decimals: Decimals)

  function Plan(num: Numerics, raw: real, minWidth: nat, minSuffix: Suffix): (p: NumberPlan)
    ensures Level(minSuffix) <= Level(p.suffix) <= MaxLevel
    ensures p.scaled * Pow10(3 * Level(p.suffix)) == raw
    ensures p.digits >= 1
    ensures Level(p.suffix) == ClampLevel(RawLevel(num, raw), minSuffix)
    ensures p.digits == IntegerDigits(num, p.scaled)
    ensures p.decimals == DecimalBudget(minWidth, p.digits)
    ensures p.digits + DecimalWidth(p.decimals) == if p.digits < minWidth then minWidth else p.digits
  {
    var level := ClampLevel(RawLevel(num, raw), minSuffix);
    var scaled := raw / Pow10(3 * level);
    var digits := IntegerDigits(num, scaled);
    NumberPlan(scaled, SuffixAt(level), digits, DecimalBudget(minWidth, digits))
  }

  /** `format_number`: the scaled value with the chosen decimals, then the suffix symbol, then
      (only when exactly one character of budget is left) a dot. */
  function FormatNumber(num: Numerics, raw: real, minWidth: nat, minSuffix: Suffix): (s: string)
    ensures var p := Plan(num, raw, minWidth, minSuffix);
      var symbol := num.suffixSymbol(p.suffix);
      (p.digits >= minWidth ==> s == num.fixed(p.scaled, 0) + symbol)
      && (p.digits + 1 == minWidth ==> s == num.fixed(p.scaled, 0) + symbol + ".")
      && (p.digits + 2 <= minWidth ==> s == num.fixed(p.scaled, minWidth - p.digits - 1) + symbol)
  {
    var p := Plan(num, raw, minWidth, minSuffix);
    match p.decimals
    case Whole => num.fixed(p.scaled, 0) + num.suffixSymbol(p.suffix)
    case TrailingDot => num.fixed(p.scaled, 0) + num.suffixSymbol(p.suffix) + "."
    case Fraction(n) => num.fixed(p.scaled, n) + num.suffixSymbol(p.suffix)
  }

  /** With one character of budget left the dot comes after the suffix symbol, not between the
      number and the suffix. */
  lemma TrailingDotAfterSuffix(num: Numerics, raw: real, minWidth: nat, minSuffix: Suffix)
    requires Plan(num, raw, minWidth, minSuffix).digits + 1 == minWidth
    ensures var p := Plan(num, raw, minWidth, minSuffix);
      FormatNumber(num, raw, minWidth, minSuffix) == num.fixed(p.scaled, 0) + num.suffixSymbol(p.suffix) + "."
  {
  }

  /** Without a trailing dot the output is the `{:.N}` rendering followed by the suffix symbol,
      and `N` is positive exactly when at least two characters of budget are left. */
  lemma FormatNumberNoDot(num: Numerics, raw: real, minWidth: nat, minSuffix: Suffix)
    requires Plan(num, raw, minWidth, minSuffix).digits + 1 != minWidth
    ensures var p := Plan(num, raw, minWidth, minSuffix);
      FormatNumber(num, raw, minWidth, minSuffix) == num.fixed(p.scaled, Places(p.decimals)) + num.suffixSymbol(p.suffix)
      && (Places(p.decimals) > 0 <==> p.digits + 2 <= minWidth)
      && (Places(p.decimals) > 0 ==> p.digits + 1 + Places(p.decimals) == minWidth)
  {
  }

  /** Zero is shown unscaled, with one integer digit, at the smallest permitted suffix. */
  lemma ZeroInput(num: Numerics, minWidth: nat, minSuffix: Suffix)
    ensures Plan(num, 0.0, minWidth, minSuffix) == NumberPlan(0.0, minSuffix, 1, DecimalBudget(minWidth, 1))
  {
  }

  /** A negative number gets level 0 (raised to the minimum suffix) and one integer digit. */
  lemma NegativeInput(num: Numerics, raw: real, minWidth: nat, minSuffix: Suffix)
    requires raw < 0.0
    ensures var p := Plan(num, raw, minWidth, minSuffix);
      Level(p.suffix) == (if Level(minSuffix) > 0 then Level(minSuffix) else 0) && p.digits == 1
  {
  }

  /** When the clamp does not intervene, the scaled value lies in [1, 1000) and its integer part
      has between one and three digits. */
  lemma UnclampedPlan(num: Numerics, raw: real, minWidth: nat, minSuffix: Suffix)
    requires ExactLog10(num)
    requires raw > 0.0
    requires Level(minSuffix) <= RawLevel(num, raw) <= MaxLevel
    ensures var p := Plan(num, raw, minWidth, minSuffix);
      1.0 <= p.scaled < 1000.0
      && 1 <= p.digits <= 3
      && p.digits == num.log10Floor(raw) - 3 * Level(p.suffix) + 1
  {
    var p := Plan(num, raw, minWidth, minSuffix);
    var k := num.log10Floor(raw);
    var level := Level(p.suffix);
    assert level == k / 3;
    var d := k - 3 * level;
    assert 0 <= d <= 2;
    assert p.scaled == raw / Pow10(3 * level);
    assert Pow10(k) <= raw < Pow10(k + 1);
    ScaledMagnitude(raw, k, level);
    var j := num.log10Floor(p.scaled);
    assert Pow10(j) <= p.scaled < Pow10(j + 1);
    Log10Unique(p.scaled, j, d);
  }

  /** Scaling a positive number by 1000 moves its suffix up exactly one step, unless it is
      already at `Tera` (or still held up by the minimum suffix). */
  lemma ScaleByThousand(num: Numerics, x: real, minWidth: nat, minSuffix: Suffix)
    requires ExactLog10(num)
    requires x > 0.0
    requires RawLevel(num, x) >= Level(minSuffix)
    ensures var before := Level(Plan(num, x, minWidth, minSuffix).suffix);
      Level(Plan(num, 1000.0 * x, minWidth, minSuffix).suffix) == if before < MaxLevel then before + 1 else MaxLevel
  {
    var k := num.log10Floor(x);
    var k' := num.log10Floor(1000.0 * x);
    assert Pow10(k) <= x < Pow10(k + 1);
    assert Pow10(k') <= 1000.0 * x < Pow10(k' + 1);
    Pow10Thousand(k);
    Pow10Thousand(k + 1);
    Log10Unique(1000.0 * x, k', k + 3);
    assert k' / 3 == k / 3 + 1;
  }

  /** 1536 with a minimum suffix of `One` and width 3 is shown as 1.536 rounded to one decimal,
      then the `Kilo` symbol. */
  lemma KiloExample(num: Numerics)
    requires num.log10Floor(1536.0) == 3
    requires num.log10Floor(1.536) == 0
    ensures FormatNumber(num, 1536.0, 3, One) == num.fixed(1.536, 1) + num.suffixSymbol(Kilo)
  {
  }
}

=== FILE: optional.dfy ===
/** The `Option` type used for Rust's `Option<T>` and for renderings that can panic. */
module Optional {

  datatype Option<+T> = None | Some(value: T)

  /** Rust's `Option::unwrap_or`: the carried value, or `default` when there is none. */
  function GetOr<T>(o: Option<T>, default: T): (r: T)
    ensures o.Some? ==> r == o.value
    ensures o.None? ==> r == default
  {
    match o
    case Some(v) => v
    case None => default
  }
}

=== FILE: powers.dfy ===
/** Exact integer powers of ten over the reals, the scale factors of SI suffixes
    (`10f64.powi(exp_level * 3)` without rounding). */
module Powers {

  function Pow10(k: int): (p: real)
    ensures p > 0.0
    decreases if k >= 0 then k else -k
  {
    if k == 0 then 1.0
    else if k > 0 then 10.0 * Pow10(k - 1)
    else Pow10(k + 1) / 10.0
  }

  lemma Pow10Step(k: int)
    ensures Pow10(k + 1) == 10.0 * Pow10(k)
  {
  }

  /** Three decimal steps make one SI step. */
  lemma Pow10Thousand(k: int)
    ensures Pow10(k + 3) == 1000.0 * Pow10(k)
  {
    Pow10Step(k);
    Pow10Step(k + 1);
    Pow10Step(k + 2);
  }

  /** Splitting off a small non-negative exponent. */
  lemma Pow10Split(base: int, d: int)
    requires 0 <= d <= 3
    ensures Pow10(base + d) == Pow10(d) * Pow10(base)
  {
    Pow10Step(base);
    Pow10Step(base + 1);
    Pow10Step(base + 2);
    assert Pow10(1) == 10.0 && Pow10(2) == 100.0 && Pow10(3) == 1000.0;
  }

  /** Bounds on a quotient by a positive divisor. */
  lemma DivideBounds(x: real, p: real, lo: real, hi: real)
    requires p > 0.0
    requires lo * p <= x < hi * p
    ensures lo <= x / p < hi
  {
  }

  lemma {:induction false} Pow10Monotone(a: int, b: int)
    requires a < b
    ensures Pow10(a) < Pow10(b)
    decreases b - a
  {
    Pow10Step(b - 1);
    if a < b - 1 {
      Pow10Monotone(a, b - 1);
    }
  }

  /** A positive number lies between consecutive powers of ten for at most one exponent, so
      floor(log10 x) is well defined. */
  lemma Log10Unique(x: real, j: int, m: int)
    requires Pow10(j) <= x < Pow10(j + 1)
    requires Pow10(m) <= x < Pow10(m + 1)
    ensures j == m
  {
    if j < m {
      if j + 1 < m {
        Pow10Monotone(j + 1, m);
      }
    } else if m < j {
      if m + 1 < j {
        Pow10Monotone(m + 1, j);
      }
    }
  }

  /** Dividing a number of decimal magnitude `k` by 1000^level (with `k - 3 * level` in 0..2)
      leaves magnitude `k - 3 * level`. */
  lemma ScaledMagnitude(x: real, k: int, level: int)
    requires Pow10(k) <= x < Pow10(k + 1)
    requires 0 <= k - 3 * level <= 2
    ensures Pow10(k - 3 * level) <= x / Pow10(3 * level) < Pow10(k - 3 * level + 1)
  {
    var d := k - 3 * level;
    var scale := Pow10(3 * level);
    Pow10Split(3 * level, d);
    Pow10Split(3 * level, d + 1);
    assert 3 * level + d == k;
    assert 3 * level + (d + 1) == k + 1;
    DivideBounds(x, scale, Pow10(d), Pow10(d + 1));
  }
}

=== FILE: rust_int.dfy ===
/** Rust's 64-bit signed integers as the formatter uses them: the value range, division that
    truncates toward zero, and the decimal text of `i64::to_string`. */
module RustInt {

  const I64Min: int := -0x8000_0000_0000_0000
  const I64Max: int := 0x7fff_ffff_ffff_ffff

  newtype i64 = x: int | I64Min <= x <= I64Max

  predicate InI64(x: int) {
    I64Min <= x <= I64Max
  }

  /** Rust's `/` on integers: the quotient truncated toward zero, so the remainder takes the
      sign of the dividend. Dafny's own `/` is Euclidean and differs for negative `a`. */
  function TruncDiv(a: int, b: int): (q: int)
    requires b > 0
    ensures 0 <= a ==> 0 <= a - q * b < b
    ensures a < 0 ==> -b < a - q * b <= 0
  {
    if a >= 0 then a / b else -((-a) / b)
  }

  /** Truncating division is the only quotient whose remainder has the dividend's sign and is smaller than the divisor. */
  lemma TruncDivUnique(a: int, b: int, q: int)
    requires b > 0
    requires 0 <= a ==> 0 <= a - q * b < b
    requires a < 0 ==> -b < a - q * b <= 0
    ensures q == TruncDiv(a, b)
  {
    var t := TruncDiv(a, b);
    var d := t - q;
    assert (a - q * b) - (a - t * b) == d * b;
    assert -b < d * b < b;
    if d >= 1 {
      MulAtLeast(d, b);
    } else if d <= -1 {
      MulAtLeast(-d, b);
    }
  }

  lemma MulAtLeast(d: int, b: int)
    requires d >= 1 && b > 0
    ensures d * b >= b
  {
  }

  predicate IsDigit(c: char) {
    '0' <= c <= '9'
  }

  function DigitChar(d: int): (c: char)
    requires 0 <= d < 10
    ensures IsDigit(c)
  {
    ('0' as int + d) as char
  }

  function DigitValue(c: char): (d: int)
    requires IsDigit(c)
    ensures 0 <= d < 10
  {
    c as int - '0' as int
  }

  /** Decimal digits of a natural number, most significant first, without leading zeros. */
  function NatDigits(n: nat): (s: string)
    ensures 1 <= |s|
    ensures forall i | 0 <= i < |s| :: IsDigit(s[i])
    ensures s[0] == '0' ==> n == 0
  {
    if n < 10 then [DigitChar(n)] else NatDigits(n / 10) + [DigitChar(n % 10)]
  }

  /** `i64::to_string`: a minus sign for negative numbers, then the digits of the magnitude. */
  function IntToString(x: int): (s: string)
    ensures 1 <= |s|
    ensures x < 0 <==> s[0] == '-'
    ensures forall i | (if x < 0 then 1 else 0) <= i < |s| :: IsDigit(s[i])
    ensures var start := if x < 0 then 1 else 0; start < |s| && (s[start] == '0' ==> x == 0)
  {
    if x < 0 then "-" + NatDigits(-x) else NatDigits(x)
  }

  /** Reads a run of decimal digits back as a number. */
  function ParseDigits(s: string): (n: nat)
    requires forall i | 0 <= i < |s| :: IsDigit(s[i])
  {
    if |s| == 0 then 0 else 10 * ParseDigits(s[..|s| - 1]) + DigitValue(s[|s| - 1])
  }

  /** Reads an optionally signed decimal numeral. */
  function ParseInt(s: string): (x: int)
    requires 1 <= |s|
    requires forall i | (if s[0] == '-' then 1 else 0) <= i < |s| :: IsDigit(s[i])
  {
    if s[0] == '-' then 0 - ParseDigits(s[1..]) else ParseDigits(s)
  }

  lemma {:induction false} ParseNatDigits(n: nat)
    ensures ParseDigits(NatDigits(n)) == n
    decreases n
  {
    if n >= 10 {
      var s := NatDigits(n);
      assert s[..|s| - 1] == NatDigits(n / 10);
      ParseNatDigits(n / 10);
    }
  }

  /** The decimal text of an integer reads back as that integer, so no two integers share a text. */
  lemma IntToStringRoundTrip(x: int)
    ensures ParseInt(IntToString(x)) == x
  {
    var s := IntToString(x);
    if x < 0 {
      assert s[1..] == NatDigits(-x);
      ParseNatDigits(-x);
    } else {
      ParseNatDigits(x);
    }
  }

  lemma IntToStringInjective(x: int, y: int)
    ensures IntToString(x) == IntToString(y) ==> x == y
  {
    IntToStringRoundTrip(x);
    IntToStringRoundTrip(y);
  }
}

=== FILE: units.dfy ===
/** Display units and SI magnitude suffixes, the two closed tags the formatter works with.
    Their display strings live outside the formatter and are parameters of the model. */
module Units {

  /** The measurement unit attached to a value; `Unitless` is Rust's `Unit::None`. */
  datatype Unit =
    | Unitless
    | Degrees
    | Percents
    | BitsPerSecond
    | BytesPerSecond
    | Seconds
    | Watts
    | Hertz
    | Bytes

  /** SI magnitude steps, smallest first; neighbours differ by a factor of 1000. */
  datatype Suffix = Nano | Micro | Milli | One | Kilo | Mega | Giga | Tera

  const MaxLevel: int := 4
  const MinLevel: int := -3

  /** The exponent level (power of 1000) of a suffix: the table `min_exp_level` is read from. */
  function Level(s: Suffix): (l: int)
    ensures MinLevel <= l <= MaxLevel
  {
    match s
    case Tera => 4
    case Giga => 3
    case Mega => 2
    case Kilo => 1
    case One => 0
    case Milli => -1
    case Micro => -2
    case Nano => -3
  }

  /** The suffix shown for an exponent level; every level outside -2..4 falls to `Nano`. */
  function SuffixAt(level: int): (s: Suffix)
    ensures MinLevel <= level <= MaxLevel ==> Level(s) == level
    ensures level < MinLevel || level > MaxLevel ==> s == Nano
  {
    if level == 4 then Tera
    else if level == 3 then Giga
    else if level == 2 then Mega
    else if level == 1 then Kilo
    else if level == 0 then One
    else if level == -1 then Milli
    else if level == -2 then Micro
    else Nano
  }

  /** The level table and the suffix table are mutually inverse. */
  lemma SuffixAtLevel(s: Suffix)
    ensures SuffixAt(Level(s)) == s
  {
  }

  /** Levels rise strictly along the suffix order, from Nano at -3 to Tera at 4. */
  lemma LevelOrder()
    ensures Level(Nano) < Level(Micro) < Level(Milli) < Level(One) < Level(Kilo) < Level(Mega) < Level(Giga) < Level(Tera)
  {
  }

  /** Distinct suffixes have distinct levels, so the level order is a total order on suffixes. */
  lemma LevelInjective(a: Suffix, b: Suffix)
    ensures Level(a) == Level(b) <==> a == b
  {
  }
}

=== FILE: utf8_text.dfy ===
/** Rust `String`s seen as sequences of chars whose lengths are counted in UTF-8 bytes, as
    `str::len` and `String::truncate` count them. */
module Utf8Text {
  import opened Optional

  predicate IsAscii(c: char) {
    c as int < 0x80
  }

  predicate AllAscii(s: string) {
    forall i | 0 <= i < |s| :: IsAscii(s[i])
  }

  /** Number of bytes in the UTF-8 encoding of one char. */
  function Utf8Width(c: char): (w: nat)
    ensures 1 <= w <= 4
    ensures w == 1 <==> IsAscii(c)
    ensures w == 2 <==> 0x80 <= c as int < 0x800
    ensures w == 3 <==> 0x800 <= c as int < 0x1_0000
  {
    if c as int < 0x80 then 1
    else if c as int < 0x800 then 2
    else if c as int < 0x1_0000 then 3
    else 4
  }

  /** `str::len`: the length of the UTF-8 encoding in bytes. */
  function ByteLen(s: string): (n: nat)
    ensures |s| <= n <= 4 * |s|
    ensures |s| == 1 ==> n == Utf8Width(s[0])
  {
    if |s| == 0 then 0 else Utf8Width(s[0]) + ByteLen(s[1..])
  }

  lemma {:induction false} ByteLenAppend(a: string, b: string)
    ensures ByteLen(a + b) == ByteLen(a) + ByteLen(b)
    decreases |a|
  {
    if |a| > 0 {
      assert (a + b)[1..] == a[1..] + b;
      ByteLenAppend(a[1..], b);
    } else {
      assert a + b == b;
    }
  }

  /** For ASCII text, bytes and chars coincide. */
  lemma {:induction false} AsciiByteLen(s: string)
    requires AllAscii(s)
    ensures ByteLen(s) == |s|
    decreases |s|
  {
    if |s| > 0 {
      AsciiByteLen(s[1..]);
    }
  }

  /** `n` copies of `c`. */
  function Repeat(c: char, n: nat): (s: string)
    ensures |s| == n
    ensures forall i | 0 <= i < n :: s[i] == c
  {
    seq(n, _ => c)
  }

  lemma {:induction false} RepeatByteLen(c: char, n: nat)
    ensures ByteLen(Repeat(c, n)) == n * Utf8Width(c)
    decreases n
  {
    if n > 0 {
      assert Repeat(c, n)[1..] == Repeat(c, n - 1);
      RepeatByteLen(c, n - 1);
    }
  }

  /** Appends one `pad` per byte that `t` is short of `minWidth` (the loop over `text_len..min_width`). */
  function PadRight(t: string, minWidth: nat, pad: char): (r: string)
    ensures |t| <= |r| && r[..|t|] == t
    ensures |r| == |t| + (if ByteLen(t) < minWidth then minWidth - ByteLen(t) else 0)
    ensures forall i | |t| <= i < |r| :: r[i] == pad
    ensures ByteLen(t) >= minWidth ==> r == t
    ensures IsAscii(pad) ==> ByteLen(r) == if ByteLen(t) < minWidth then minWidth else ByteLen(t)
  {
    if ByteLen(t) < minWidth then
      var fill := Repeat(pad, minWidth - ByteLen(t));
      ByteLenAppend(t, fill);
      RepeatByteLen(pad, minWidth - ByteLen(t));
      t + fill
    else
      t
  }

  /** Prepends one `pad` per byte that `t` is short of `minWidth`. */
  function PadLeft(t: string, minWidth: nat, pad: char): (r: string)
    ensures |t| <= |r| && r[|r| - |t|..] == t
    ensures |r| == |t| + (if ByteLen(t) < minWidth then minWidth - ByteLen(t) else 0)
    ensures forall i | 0 <= i < |r| - |t| :: r[i] == pad
    ensures ByteLen(t) >= minWidth ==> r == t
    ensures IsAscii(pad) ==> ByteLen(r) == if ByteLen(t) < minWidth then minWidth else ByteLen(t)
  {
    if ByteLen(t) < minWidth then
      var fill := Repeat(pad, minWidth - ByteLen(t));
      ByteLenAppend(fill, t);
      RepeatByteLen(pad, minWidth - ByteLen(t));
      fill + t
    else
      t
  }

  /** Dropping the first char of a non-empty prefix removes that char's bytes. */
  lemma PrefixUnfold(s: string)
    requires |s| > 0
    ensures forall j | 1 <= j <= |s| :: ByteLen(s[..j]) == Utf8Width(s[0]) + ByteLen(s[1..][..j - 1])
  {
    forall j | 1 <= j <= |s|
      ensures ByteLen(s[..j]) == Utf8Width(s[0]) + ByteLen(s[1..][..j - 1])
    {
      assert s[..j][1..] == s[1..][..j - 1];
    }
  }

  /** `str::is_char_boundary` made constructive: how many leading chars take up exactly `n` bytes,
      or `None` when byte offset `n` falls inside a char or past the end. */
  function BoundaryIndex(s: string, n: nat): (k: Option<nat>)
    ensures k.Some? ==> k.value <= |s| && ByteLen(s[..k.value]) == n
    ensures k.None? ==> forall j | 0 <= j <= |s| :: ByteLen(s[..j]) != n
    decreases |s|
  {
    if n == 0 then
      assert s[..0] == [];
      Some(0)
    else if |s| == 0 then
      None
    else
      PrefixUnfold(s);
      if Utf8Width(s[0]) > n then
        None
      else
        match BoundaryIndex(s[1..], n - Utf8Width(s[0]))
        case Some(j) => Some(j + 1)
        case None => None
  }

  /** `String::truncate(n)`: keeps the first `n` bytes when `n` is below the byte length; Rust
      panics (here `None`) when `n` does not fall on a char boundary. */
  function TruncateBytes(s: string, n: nat): (r: Option<string>)
    ensures r.Some? ==> r.value <= s && ByteLen(r.value) == if n < ByteLen(s) then n else ByteLen(s)
    ensures r.None? <==> n < ByteLen(s) && forall j | 0 <= j <= |s| :: ByteLen(s[..j]) != n
  {
    if n >= ByteLen(s) then
      Some(s)
    else
      match BoundaryIndex(s, n)
      case Some(k) => Some(s[..k])
      case None => None
  }

  /** On ASCII text truncation never panics and keeps `min(n, |s|)` chars. */
  lemma AsciiTruncate(s: string, n: nat)
    requires AllAscii(s)
    ensures TruncateBytes(s, n) == Some(if n < |s| then s[..n] else s)
  {
    AsciiByteLen(s);
    if n < |s| {
      AsciiByteLen(s[..n]);
      var r := TruncateBytes(s, n);
      assert r.Some?;
      var k := BoundaryIndex(s, n).value;
      AsciiByteLen(s[..k]);
    }
  }
}

=== FILE: values.dfy ===
/** `Value` and `Value::format`: a stored measurement with its unit, icon and default width,
    rendered under the per-call overrides of a `Variable`. */
module Values {
  import opened Optional
  import opened Units
  import opened RustInt
  import opened Utf8Text
  import opened Bar
  import opened NumberFormat

  /** The measurement; its kind is fixed when the value is built. */
  datatype InternalValue =
    | Text(text: string)
    | Integer(n: i64)
    | Float(x: real)

  datatype Value = Value(unit: Unit, minWidth: nat, icon: Option<string>, value: InternalValue)

  /** The render request: every field overrides a setting of the value or a built-in default. */
  datatype Variable = Variable(
    minWidth: Option<nat>,
    maxWidth: Option<nat>,
    padWith: Option<char>,
    unit: Option<Unit>,
    minSuffix: Option<Suffix>,
    barMaxValue: Option<real>)

  /** Collaborators outside the formatter: the display string of each unit and the numerics of
      `format_number`. */
  datatype Env = Env(unitSymbol: Unit -> string, numerics: Numerics)

  // Constructors

  function FromString(text: string): (v: Value)
    ensures v.icon.None? && v.unit == Unitless && v.minWidth == 0 && v.value == Text(text)
  {
    Value(Unitless, 0, None, Text(text))
  }

  function FromInteger(n: i64): (v: Value)
    ensures v.icon.None? && v.unit == Unitless && v.minWidth == 2 && v.value == Integer(n)
  {
    Value(Unitless, 2, None, Integer(n))
  }

  function FromFloat(x: real): (v: Value)
    ensures v.icon.None? && v.unit == Unitless && v.minWidth == 3 && v.value == Float(x)
  {
    Value(Unitless, 3, None, Float(x))
  }

  // Builder-style setters

  function WithIcon(v: Value, icon: string): (r: Value)
    ensures r.icon == Some(icon)
    ensures r.unit == v.unit && r.minWidth == v.minWidth && r.value == v.value
  {
    v.(icon := Some(icon))
  }

  /** The common shape of the eight unit setters. */
  function WithUnit(v: Value, u: Unit): (r: Value)
    ensures r.unit == u
    ensures r.icon == v.icon && r.minWidth == v.minWidth && r.value == v.value
  {
    v.(unit := u)
  }

  function SetDegrees(v: Value): Value { WithUnit(v, Degrees) }
  function SetPercents(v: Value): Value { WithUnit(v, Percents) }
  function SetBitsPerSecond(v: Value): Value { WithUnit(v, BitsPerSecond) }
  function SetBytesPerSecond(v: Value): Value { WithUnit(v, BytesPerSecond) }
  function SetSeconds(v: Value): Value { WithUnit(v, Seconds) }
  function SetWatts(v: Value): Value { WithUnit(v, Watts) }
  function SetHertz(v: Value): Value { WithUnit(v, Hertz) }
  function SetBytes(v: Value): Value { WithUnit(v, Bytes) }

  /** Each named unit setter stores its own unit and leaves icon, width and measurement alone. */
  lemma UnitSettersStoreTheirUnit(v: Value)
    ensures SetDegrees(v) == v.(unit := Degrees)
    ensures SetPercents(v) == v.(unit := Percents)
    ensures SetBitsPerSecond(v) == v.(unit := BitsPerSecond)
    ensures SetBytesPerSecond(v) == v.(unit := BytesPerSecond)
    ensures SetSeconds(v) == v.(unit := Seconds)
    ensures SetWatts(v) == v.(unit := Watts)
    ensures SetHertz(v) == v.(unit := Hertz)
    ensures SetBytes(v) == v.(unit := Bytes)
  {
  }

  /** Of two chained unit setters the last one wins, and icon and unit setters commute. */
  lemma SetterAlgebra(v: Value, a: Unit, b: Unit, icon: string, icon': string)
    ensures WithUnit(WithUnit(v, a), b) == WithUnit(v, b)
    ensures WithIcon(WithIcon(v, icon), icon') == WithIcon(v, icon')
    ensures WithIcon(WithUnit(v, a), icon) == WithUnit(WithIcon(v, icon), a)
  {
  }

  // Resolution of overrides

  /** `var.min_width.unwrap_or(self.min_width)`. */
  function EffectiveMinWidth(v: Value, request: Variable): (w: nat)
    ensures request.minWidth.Some? ==> w == request.minWidth.value
    ensures request.minWidth.None? ==> w == v.minWidth
  {
    GetOr(request.minWidth, v.minWidth)
  }

  /** `var.pad_with.unwrap_or(' ')`. */
  function EffectivePad(request: Variable): (c: char)
    ensures request.padWith.Some? ==> c == request.padWith.value
    ensures request.padWith.None? ==> c == ' '
  {
    GetOr(request.padWith, ' ')
  }

  /** `var.unit` when requested, otherwise the stored unit. */
  function EffectiveUnit(v: Value, request: Variable): (u: Unit)
    ensures request.unit.Some? ==> u == request.unit.value
    ensures request.unit.None? ==> u == v.unit
  {
    GetOr(request.unit, v.unit)
  }

  const DefaultMinSuffix: Suffix := Nano

  /** `var.min_suffix`, or `Nano` when none is requested. */
  function EffectiveMinSuffix(request: Variable): (s: Suffix)
    ensures request.minSuffix.Some? ==> s == request.minSuffix.value
    ensures request.minSuffix.None? ==> s == DefaultMinSuffix
  {
    GetOr(request.minSuffix, DefaultMinSuffix)
  }

  // Unit conversion

  predicate BytesToBits(stored: Unit, requested: Unit) {
    stored == BytesPerSecond && requested == BitsPerSecond
  }

  predicate BitsToBytes(stored: Unit, requested: Unit) {
    stored == BitsPerSecond && requested == BytesPerSecond
  }

  /** The integer conversion: bytes to bits multiplies by 8, bits to bytes divides by 8 with
      Rust's truncation toward zero, and every other pair of units leaves the number alone. */
  function ConvertInt(stored: Unit, requested: Unit, n: int): (m: int)
    ensures BytesToBits(stored, requested) ==> m == 8 * n
    ensures BitsToBytes(stored, requested) ==> (0 <= n ==> 0 <= n - 8 * m < 8) && (n < 0 ==> -8 < n - 8 * m <= 0)
    ensures !BytesToBits(stored, requested) && !BitsToBytes(stored, requested) ==> m == n
  {
    if BytesToBits(stored, requested) then n * 8
    else if BitsToBytes(stored, requested) then TruncDiv(n, 8)
    else n
  }

  /** The float conversion, exact on reals. */
  function ConvertFloat(stored: Unit, requested: Unit, x: real): (y: real)
    ensures BytesToBits(stored, requested) ==> y == 8.0 * x
    ensures BitsToBytes(stored, requested) ==> 8.0 * y == x
    ensures !BytesToBits(stored, requested) && !BitsToBytes(stored, requested) ==> y == x
  {
    if BytesToBits(stored, requested) then x * 8.0
    else if BitsToBytes(stored, requested) then x / 8.0
    else x
  }

  /** Converting to bits and back to bytes restores an integer; for floats both orders do. */
  lemma ConversionRoundTrip(n: int, x: real)
    ensures ConvertInt(BitsPerSecond, BytesPerSecond, ConvertInt(BytesPerSecond, BitsPerSecond, n)) == n
    ensures ConvertFloat(BitsPerSecond, BytesPerSecond, ConvertFloat(BytesPerSecond, BitsPerSecond, x)) == x
    ensures ConvertFloat(BytesPerSecond, BitsPerSecond, ConvertFloat(BitsPerSecond, BytesPerSecond, x)) == x
  {
  }

  /** Bits to bytes rounds toward zero, not down: -9 bits is -1 byte. */
  lemma NegativeBitsTruncate()
    ensures ConvertInt(BitsPerSecond, BytesPerSecond, -9) == -1
    ensures ConvertInt(BitsPerSecond, BytesPerSecond, 9) == 1
  {
  }

  // Scalar renderings

  /** The text branch: right-pad to `minWidth` bytes, then truncate to `maxWidth` bytes when one
      is requested. `None` is the panic of `String::truncate` off a char boundary. */
  function RenderText(t: string, minWidth: nat, pad: char, maxWidth: Option<nat>): (r: Option<string>)
    ensures maxWidth.None? ==> r == Some(PadRight(t, minWidth, pad))
    ensures r.None? <==> (maxWidth.Some? && maxWidth.value < ByteLen(PadRight(t, minWidth, pad))
      && forall j | 0 <= j <= |PadRight(t, minWidth, pad)| :: ByteLen(PadRight(t, minWidth, pad)[..j]) != maxWidth.value)
    ensures r.Some? ==> r.value <= PadRight(t, minWidth, pad)
    ensures r.Some? && maxWidth.Some? ==>
      ByteLen(r.value) == (if maxWidth.value < ByteLen(PadRight(t, minWidth, pad)) then maxWidth.value else ByteLen(PadRight(t, minWidth, pad)))
  {
    var padded := PadRight(t, minWidth, pad);
    if maxWidth.Some? then TruncateBytes(padded, maxWidth.value) else Some(padded)
  }

  /** For ASCII text and pad the text branch never panics, its length is
      min(max(|t|, minWidth), maxWidth), and `t` survives whole whenever `maxWidth` allows it. */
  lemma AsciiTextRendering(t: string, minWidth: nat, pad: char, maxWidth: Option<nat>)
    requires AllAscii(t) && IsAscii(pad)
    ensures RenderText(t, minWidth, pad, maxWidth).Some?
    ensures var r := RenderText(t, minWidth, pad, maxWidth).value;
      var wide := if |t| < minWidth then minWidth else |t|;
      |r| == (if maxWidth.Some? && maxWidth.value < wide then maxWidth.value else wide)
      && (maxWidth.None? || maxWidth.value >= |t| ==> r[..|t|] == t)
  {
    var padded := PadRight(t, minWidth, pad);
    assert AllAscii(padded);
    AsciiByteLen(t);
    AsciiByteLen(padded);
    if maxWidth.Some? {
      AsciiTruncate(padded, maxWidth.value);
    }
  }

  /** The integer branch: the decimal text left-padded to `minWidth`. */
  function RenderInteger(n: int, minWidth: nat, pad: char): (r: string)
    ensures var digits := IntToString(n);
      |r| == (if |digits| < minWidth then minWidth else |digits|)
      && r[|r| - |digits|..] == digits
      && (forall i | 0 <= i < |r| - |digits| :: r[i] == pad)
      && ParseInt(r[|r| - |digits|..]) == n
  {
    var digits := IntToString(n);
    AsciiByteLen(digits);
    IntToStringRoundTrip(n);
    PadLeft(digits, minWidth, pad)
  }

  // Value::format

  /** The numeric measurement as a real (`i as f64` for integers). */
  function Magnitude(iv: InternalValue): (r: real)
    requires !iv.Text?
    ensures iv.Integer? ==> r.Floor == iv.n as int && r == r.Floor as real
    ensures iv.Float? ==> r == iv.x
  {
    if iv.Integer? then (iv.n as int) as real else iv.x
  }

  predicate DrawsBar(v: Value, request: Variable) {
    request.barMaxValue.Some? && !v.value.Text?
  }

  /** What the source needs from its caller: a nonzero bar maximum (the `f64` division by zero is
      not modelled) and an integer conversion that does not overflow `i64`. */
  predicate Renderable(v: Value, request: Variable) {
    (DrawsBar(v, request) ==> request.barMaxValue.value != 0.0)
    && (v.value.Integer? && !DrawsBar(v, request) ==>
          InI64(ConvertInt(v.unit, EffectiveUnit(v, request), v.value.n as int)))
  }

  function IconText(icon: Option<string>): string
  {
    if icon.Some? then icon.value else ""
  }

  /** The rendered measurement before icon and unit symbol are attached. */
  function ScalarBody(v: Value, request: Variable, env: Env): (r: Option<string>)
    ensures !v.value.Text? ==> r.Some?
    ensures r.None? ==> v.value.Text? && request.maxWidth.Some?
    ensures v.value.Text? ==> r == RenderText(v.value.text, EffectiveMinWidth(v, request), EffectivePad(request), request.maxWidth)
    ensures v.value.Integer? ==>
      r == Some(RenderInteger(ConvertInt(v.unit, EffectiveUnit(v, request), v.value.n as int), EffectiveMinWidth(v, request), EffectivePad(request)))
    ensures v.value.Float? ==>
      r == Some(FormatNumber(env.numerics, ConvertFloat(v.unit, EffectiveUnit(v, request), v.value.x), EffectiveMinWidth(v, request), EffectiveMinSuffix(request)))
  {
    var minWidth := EffectiveMinWidth(v, request);
    var pad := EffectivePad(request);
    var unit := EffectiveUnit(v, request);
    match v.value
    case Text(t) => RenderText(t, minWidth, pad, request.maxWidth)
    case Integer(n) => Some(RenderInteger(ConvertInt(v.unit, unit, n as int), minWidth, pad))
    case Float(x) => Some(FormatNumber(env.numerics, ConvertFloat(v.unit, unit, x), minWidth, EffectiveMinSuffix(request)))
  }

  /** `Value::format`. `None` stands for the panic of `String::truncate`. */
  function Format(v: Value, request: Variable, env: Env): (r: Option<string>)
    requires Renderable(v, request)
    ensures r.None? ==> v.value.Text? && request.maxWidth.Some?
  {
    if DrawsBar(v, request) then
      Some(FormatBar(Magnitude(v.value) / request.barMaxValue.value, EffectiveMinWidth(v, request)))
    else
      match ScalarBody(v, request, env)
      case None => None
      case Some(body) => Some(IconText(v.icon) + body + env.unitSymbol(EffectiveUnit(v, request)))
  }

  // Properties of Value::format

  /** With a bar maximum set, a number is drawn as a bar exactly `min_width` cells long: the bar
      of its ratio to the maximum, with neither icon nor unit symbol. */
  lemma BarPathBypassesDecoration(v: Value, request: Variable, env: Env)
    requires Renderable(v, request)
    requires DrawsBar(v, request)
    ensures var ratio := Magnitude(v.value) / request.barMaxValue.value;
      Format(v, request, env) == Some(FormatBar(ratio, EffectiveMinWidth(v, request)))
      && |Format(v, request, env).value| == EffectiveMinWidth(v, request)
      && forall i | 0 <= i < EffectiveMinWidth(v, request) :: Format(v, request, env).value[i] in Ramp
  {
  }

  /** A text value ignores the bar request and the minimum suffix: both leave its rendering unchanged. */
  lemma TextIgnoresBarAndSuffix(v: Value, request: Variable, env: Env, bar: Option<real>, minSuffix: Option<Suffix>)
    requires v.value.Text?
    ensures Renderable(v, request) && Renderable(v, request.(barMaxValue := bar, minSuffix := minSuffix))
    ensures Format(v, request.(barMaxValue := bar, minSuffix := minSuffix), env) == Format(v, request, env)
  {
  }

  /** Outside the bar path the result is the icon, then the rendered measurement, then the symbol
      of the resolved unit; text values get the unit symbol as well. */
  lemma ScalarAssembly(v: Value, request: Variable, env: Env)
    requires Renderable(v, request)
    requires !DrawsBar(v, request)
    ensures Format(v, request, env).Some? <==> ScalarBody(v, request, env).Some?
    ensures Format(v, request, env).Some? ==>
      var s := Format(v, request, env).value;
      var icon := IconText(v.icon);
      var symbol := env.unitSymbol(EffectiveUnit(v, request));
      |icon| + |symbol| <= |s| && s[..|icon|] == icon && s[|s| - |symbol|..] == symbol
      && s[|icon|..|s| - |symbol|] == ScalarBody(v, request, env).value
  {
  }

  /** An integer is shown as its (converted) decimal text left-padded to the effective width,
      between icon and unit symbol; the digits read back as the converted number. */
  lemma IntegerRendering(v: Value, request: Variable, env: Env)
    requires Renderable(v, request)
    requires v.value.Integer? && request.barMaxValue.None?
    ensures var n := ConvertInt(v.unit, EffectiveUnit(v, request), v.value.n as int);
      var digits := IntToString(n);
      var width := EffectiveMinWidth(v, request);
      var body := ScalarBody(v, request, env).value;
      Format(v, request, env) == Some(IconText(v.icon) + body + env.unitSymbol(EffectiveUnit(v, request)))
      && |body| == (if |digits| < width then width else |digits|)
      && body[|body| - |digits|..] == digits
      && (forall i | 0 <= i < |body| - |digits| :: body[i] == EffectivePad(request))
      && ParseInt(body[|body| - |digits|..]) == n
  {
  }

  /** A float is shown by `format_number` with the effective width and the requested minimum
      suffix, `Nano` when none is requested. */
  lemma FloatRendering(v: Value, request: Variable, env: Env)
    requires v.value.Float? && request.barMaxValue.None?
    ensures Renderable(v, request)
    ensures var x := ConvertFloat(v.unit, EffectiveUnit(v, request), v.value.x);
      Format(v, request, env) == Some(IconText(v.icon)
        + FormatNumber(env.numerics, x, EffectiveMinWidth(v, request), GetOr(request.minSuffix, DefaultMinSuffix))
        + env.unitSymbol(EffectiveUnit(v, request)))
  {
  }

  /** Text with ASCII characters and an ASCII pad renders without panicking, to
      min(max(|t|, min_width), max_width) chars, and keeps `t` whole whenever max_width allows. */
  lemma AsciiTextFormat(v: Value, request: Variable, env: Env)
    requires v.value.Text? && AllAscii(v.value.text) && IsAscii(EffectivePad(request))
    ensures Renderable(v, request)
    ensures Format(v, request, env).Some?
    ensures var t := v.value.text;
      var body := ScalarBody(v, request, env).value;
      var width := EffectiveMinWidth(v, request);
      var wide := if |t| < width then width else |t|;
      |body| == (if request.maxWidth.Some? && request.maxWidth.value < wide then request.maxWidth.value else wide)
      && (request.maxWidth.None? || request.maxWidth.value >= |t| ==> body[..|t|] == t)
  {
    AsciiTextRendering(v.value.text, EffectiveMinWidth(v, request), EffectivePad(request), request.maxWidth);
  }

  /** A width override acts as if the value had been built with that default width, and no pad
      override means a space. */
  lemma OverridesTakePrecedence(v: Value, request: Variable, env: Env)
    requires Renderable(v, request)
    ensures request.minWidth.Some? ==>
      Renderable(v.(minWidth := request.minWidth.value), request.(minWidth := None))
      && Format(v, request, env) == Format(v.(minWidth := request.minWidth.value), request.(minWidth := None), env)
    ensures request.padWith.None? ==>
      Renderable(v, request.(padWith := Some(' ')))
      && Format(v, request, env) == Format(v, request.(padWith := Some(' ')), env)
    ensures request.unit.None? ==>
      Renderable(v, request.(unit := Some(v.unit)))
      && Format(v, request, env) == Format(v, request.(unit := Some(v.unit)), env)
  {
  }

  /** A byte rate shown in bits reads the same as the eight-times-larger bit rate shown as stored. */
  lemma BytesShownAsBits(n: i64, request: Variable, env: Env)
    requires request.barMaxValue.None? && request.unit == Some(BitsPerSecond)
    requires InI64(8 * n as int)
    ensures Renderable(SetBytesPerSecond(FromInteger(n)), request)
    ensures Renderable(SetBitsPerSecond(FromInteger((8 * n as int) as i64)), request.(unit := None))
    ensures Format(SetBytesPerSecond(FromInteger(n)), request, env)
      == Format(SetBitsPerSecond(FromInteger((8 * n as int) as i64)), request.(unit := None), env)
  {
  }

  /** `Value::from_integer(42)` with width 5 is three spaces and "42". */
  lemma PaddedIntegerExample(env: Env)
    ensures var request := Variable(Some(5), None, None, None, None, None);
      Format(FromInteger(42), request, env) == Some("   42" + env.unitSymbol(Unitless))
  {
    var digits := IntToString(42);
    assert digits == "42";
    assert ByteLen(digits) == 2;
    assert Repeat(' ', 3) == "   ";
    assert RenderInteger(42, 5, ' ') == "   42";
    var request := Variable(Some(5), None, None, None, None, None);
    assert ScalarBody(FromInteger(42), request, env) == Some("   42");
    assert "" + "   42" + env.unitSymbol(Unitless) == "   42" + env.unitSymbol(Unitless);
  }
}
